=== FILE: README.md ===
# TinyLink dashboard — a Dafny model

TinyLink is a URL-shortening service. This project models its browser client, which is a single
React file (`src/App.js`). It models the logic under the markup:

- the guards the create form applies before any request: a URL that is blank after `trim`, and a
  custom short code that does not match `^[A-Za-z0-9]{6,8}$`;
- the handling of the replies to create (POST), delete (DELETE), list (GET) and stats (GET one
  code), with their exact messages;
- the client-side search over the link list;
- the short URL `${base}/${code}` and the "-" shown for a missing timestamp;
- what the stats page renders.

Each dashboard handler is a pure function from the view's state to an `Effect`. An `Effect` holds
the new state, the request sent (if any) and the alert shown (if any). The stats page's fetch is a
pure function from the page's state to a `Step`: the new state and the request sent. The reply a request would get is an
input of the handler, and it is consulted only when a request is actually sent. The user's answer
to the delete confirmation is a boolean input. The API base address is a parameter.

Modules, one concept each:

| file | module | what |
|---|---|---|
| `options.dfy` | `Options` | `Option` (null / undefined) |
| `text.dfy` | `Text` | `trim`, ASCII `toLowerCase`, `includes`, and their laws |
| `seqs.dfy` | `Seqs` | `Array.prototype.filter` as an order-preserving filter |
| `links.dfy` | `Links` | the link record, the short-code pattern, the short URL, timestamp cells |
| `api.dfy` | `Api` | replies, `res.ok`, requests and endpoint URLs |
| `dashboard.dfy` | `Dashboard` | the dashboard's state, load/create/delete/search, and the unique-code invariant |
| `stats.dfy` | `Stats` | the stats page's fetch and render |

Behaviours of the code worth noting:

- The create request carries the URL exactly as typed; it is not trimmed. Only the blank test
  trims.
- The search query is lower-cased but not trimmed. Only the "show everything" test trims.
- A non-2xx create reply whose `error` member is the empty string gets the generic message, the
  same as one with no `error` member. One whose JSON body is `null` gets the network message,
  because reading `error` from `null` throws into the outer `catch`.
- The stats page does not clear the previous record when the code in the route changes. Once the
  fetch for the new code has started, the page never shows that record again
  (`Stats.NeverShowsStaleRecord`). The one render between the code change and the start of the
  fetch does show it, next to the new code's short URL; an error from the previous code is shown
  the same way (`Stats.StaleRecordOnNavigate`; see "## Findings").
- After a 404 on delete, the record stays in the local list.

## Model

| member | source | states |
|---|---|---|
| `Text.Trim` | src/App.js:84 | `trim()` gives the empty string exactly when every character is ECMAScript whitespace or a line terminator; a non-empty result starts and ends with a non-space |
| `Text.TrimIsSlice` | src/App.js:84 | `trim()` returns the slice of the string that is left once the whitespace before and after it is dropped; with the edge facts of `Text.Trim` this is the one string `trim` returns |
| `Text.Lower` | src/App.js:158-161 | lower-casing keeps the length and maps each character on its own, A–Z to a–z |
| `Text.LowerKeepsBlank` | src/App.js:157-158 | lower-casing neither creates nor removes whitespace, so it does not change whether a query is blank |
| `Text.LowerKeepsSpaceChar` | src/App.js:158 | lower-casing keeps a whitespace character in a string that has it and out of one that lacks it |
| `Text.Contains` | src/App.js:160-161 | `includes` accepts the empty needle in every string and never accepts a needle longer than the haystack |
| `Text.ContainsIff` | src/App.js:160-161 | `includes` holds exactly when the needle occurs at some index of the haystack |
| `Text.MissingCharNotContained` | src/App.js:160-161 | a needle with a character that the haystack lacks is not included in it |
| `Seqs.Filter` | src/App.js:149 | `filter` keeps exactly the elements that pass, in order, each as often as in the input, and never lengthens the list |
| `Links.TestCodePattern` | src/App.js:89 | the regular-expression test succeeds exactly when the code has 6 to 8 characters, all in A–Z, a–z or 0–9 |
| `Links.MatchesCodePattern` | src/App.js:89 | a code that matches `^[A-Za-z0-9]{6,8}$` has 6 to 8 characters and holds no "/", "?" or "#", so placed unencoded in a URL it is one whole path segment |
| `Links.CodeAccepted` | src/App.js:89 | the form lets a code through exactly when it is empty or 6 to 8 characters all in A–Z, a–z or 0–9; a non-empty accepted code holds no "/" |
| `Links.CodeExamples` | src/App.js:89 | "abc123" and "" pass the code rule; "ab12" (too short) and "abc-123" (bad character) fail it |
| `Links.ShortUrl` | src/App.js:258 | the short URL is the base, one slash, then the code |
| `Links.ShortUrlRoundTrip` | src/App.js:258 | the code can be read back from its short URL |
| `Links.ShortUrlInjective` | src/App.js:337 | two codes with the same short URL on one base are the same code |
| `Links.TimestampCell` | src/App.js:269-275 | a null, absent or empty timestamp shows "-"; any other is shown formatted |
| `Api.CollectionUrl` | src/App.js:62 | the collection URL is the base followed by "/api/links" |
| `Api.ItemUrl` | src/App.js:135 | the item URL is the collection URL, one slash, then the code as is |
| `Api.ItemUrlNamesOneCode` | src/App.js:313 | two codes with the same item URL string on one base are the same code |
| `Dashboard.LoadLinks` | src/App.js:57-77 | a GET of the collection; a 2xx reply replaces the list and clears the error; a non-2xx reply or a network failure keeps the list and sets the load message; loading ends in every case; nothing else changes |
| `Dashboard.LoadLinksIdempotent` | src/App.js:57-77 | loading again with the same reply gives the same state |
| `Dashboard.LoadOnMount` | src/App.js:44-77 | on mount the form, search and messages are empty; after the load the list is the server's on 2xx and empty otherwise, with the load message; the list has unique codes exactly when the server's does |
| `Dashboard.CreateGuard` | src/App.js:84-92 | "URL required." exactly when the URL is blank; the code-format message exactly when the URL is not blank and a non-empty code is not 6–8 ASCII letters or digits; otherwise the request may go |
| `Dashboard.CreateFailure` | src/App.js:104-122 | the form error for a failed create: 409 gives the taken-code message before the body is read; otherwise a JSON `null` body gives the network message, and any other body gives the server's `error` when present and non-empty, else "Could not create link."; no response gives the network message; never empty |
| `Dashboard.ApplyCreateReply` | src/App.js:104-125 | on 2xx the created record goes in front, URL and code are cleared and the success message set; otherwise list, URL, code and success text are kept and only the form error changes; `creating` ends false either way |
| `Dashboard.HandleCreate` | src/App.js:79-126 | when refused: nothing is sent and only the messages change. When sent: the untrimmed URL, and the code only if non-empty. On 2xx: the record goes first in the list, URL and code are cleared, and the success message is set. On failure: list, URL and code are kept, and the form error is the one `Dashboard.CreateFailure` gives. `creating` ends false after every sent request |
| `Dashboard.RemoveCode` | src/App.js:149 | the result holds exactly the records whose code differs from the deleted one, in order and with their multiplicities; it is the whole list when no record has that code |
| `Dashboard.HandleDelete` | src/App.js:128-154 | a cancelled confirmation sends nothing and changes nothing. Otherwise a DELETE goes to the code's URL. On 2xx the code's records are removed. A 404, another non-2xx and a network failure each keep the state and raise their own alert |
| `Dashboard.MatchesQuery` | src/App.js:159-162 | a record matches a lower-cased query exactly when the query occurs at some index of its lower-cased code or its lower-cased target URL |
| `Dashboard.Visible` | src/App.js:156-163 | a blank query shows the whole list; otherwise the shown rows are exactly the records whose lower-cased code or URL contains the lower-cased query, as an ordered sub-list with multiplicities kept |
| `Dashboard.VisibleIgnoresQueryCase` | src/App.js:158-161 | queries that agree after lower-casing show the same rows |
| `Dashboard.VisibleByOccurrence` | src/App.js:156-163 | for a non-blank query, a record is shown exactly when the query occurs at some index of its lower-cased code or URL |
| `Dashboard.UntrimmedQuery` | src/App.js:157-158 | the query is not trimmed, so a whitespace character that it holds and that no record holds hides every row |
| `Dashboard.NoMatchShowsNothing` | src/App.js:156-163 | a non-blank query that no record matches shows no rows |
| `Dashboard.RemoveCodeKeepsUnique` | src/App.js:149 | removing a code from a list with unique codes keeps them unique |
| `Dashboard.RemoveCodeDropsOne` | src/App.js:149 | removing a present code from a list with unique codes takes out exactly one record |
| `Dashboard.RemoveCodeFromUnique` | src/App.js:149 | with unique codes, removing a code keeps codes unique and removes exactly one record if the code is present, none otherwise |
| `Dashboard.CreateKeepsUnique` | src/App.js:116 | a create keeps codes unique when the server returns a code the list does not hold |
| `Dashboard.DeleteKeepsUnique` | src/App.js:149 | a delete keeps codes unique; a successful delete of a present code shortens the list by exactly one |
| `Stats.Mount` | src/App.js:303-306 | the page mounts loading, with no record and no error, for the route's code |
| `Stats.Navigate` | src/App.js:303-311 | a change of the route's code re-renders the page with the new code and the old record, loading flag and error untouched, before the effect runs |
| `Stats.Remount` | src/App.js:303-311 | the corrected code change: the state is reset as on a fresh mount for the new code, loading with no record and no error |
| `Stats.Begin` | src/App.js:310-311 | starting a fetch sets loading, clears the error, and keeps the code and the previous record |
| `Stats.Fetch` | src/App.js:309-332 | a GET of the code's URL. A 404 gives "Code doesn't exist.", another non-2xx gives "Stats doesn't load.", and a network failure gives "Network error."; all three keep the old record. A 2xx reply stores the record with no error. Loading ends in every case |
| `Stats.Render` | src/App.js:339-356 | the page shows loading exactly while loading; it shows the error, and exactly the state's error text, when it is not loading and there is one; otherwise it shows the stored record with the short URL of the route's code |
| `Stats.RenderableReachable` | src/App.js:302-356 | every state the page reaches can be rendered without a null record: the mount, a renderable state after a code change before the effect runs, the reset state of the corrected code change, the start of the effect, and every fetch outcome |
| `Stats.NeverShowsStaleRecord` | src/App.js:308-356 | once the fetch for a new code has started, the page shows only "Loading..." while it is in flight, and afterwards exactly the fetched record or that fetch's own error |
| `Stats.StaleRecordOnNavigate` | src/App.js:303-356 | as written, a move to another code first renders what the previous code left: after a successful fetch its record, next to the new code's short URL; after a 404 its "Code doesn't exist." |
| `Stats.RemountShowsNoStaleRecord` | src/App.js:303-356 | with the state reset on a code change, the first render is "Loading...", and after the fetch the page shows exactly the fetched record or that fetch's error |

## Findings

| source | as written | input that shows it | evidently intended | confidence | as-written member | corrected member |
|---|---|---|---|---|---|---|
| src/App.js:302-311 | `data` and `err` survive a change of `code`, and `setLoading(true)` only runs in the effect after the first render with the new code | the page at `/code/a` has loaded `a`'s record; the user jumps straight to an earlier `/code/b` history entry, skipping the `/` entry that lies between (the stats page is reached only from the dashboard's Stats button, so such a jump goes through the back button's history menu or `history.go(-2)`). The render before the effect is not loading, has no error, and shows `a`'s record with `b`'s short URL. After a 404 for `a` it shows `a`'s error under `b` | loading is re-entered, and the old record and error dropped, before anything is rendered for the new code | high; not executed | `Stats.StaleRecordOnNavigate` | `Stats.RemountShowsNoStaleRecord` |

## Left out

- The network, `fetch` and JSON parsing. A reply is an input, and a 2xx body is taken to be a well-formed record or list. A `res.json()` failure on a 2xx reply is not modelled. In the source it would land in that handler's catch block and show its catch message: the load message for the list, the network message for create and stats.
- A truthy `error` member that is not a string is not modelled. In the source a number is shown as the form error, and a plain object makes the render throw, because React cannot render an object as a child and the app has no error boundary. The model's `error` is a string or absent; a JSON `null` body is modelled.
- React hooks, rendering and JSX markup. Effect scheduling appears only as the render between a code change and the start of the stats fetch (`Stats.Navigate`). Also left out: routing (`Router`, `useParams`, `useNavigate`), `Header`, `Footer`, `NotFound` and the CSS. `Stats.Render` keeps only which of the three page bodies is shown.
- `window.confirm`, `alert` and `navigator.clipboard`. The confirmation is a boolean input, and the alert is the text in the `Effect`. The copy button is not modelled.
- `new Date(...).toLocaleString()`. It depends on locale and time zone, so it is a parameter of `Links.TimestampCell`.
- `process.env.REACT_APP_API_BASE` and its `http://localhost:5000` default. The base address is a parameter.
- Overlapping requests, and replies that arrive after the user has edited the form or left the page. The source has no guard for them. Each handler runs from submission to reply on one state.
- Re-entrancy while `creating` is true. The source only disables the button. `Dashboard.HandleCreate` leaves `creating` untouched when a guard refuses.
- `console.error` logging.
- Text.Lower: maps only ASCII A–Z. JavaScript's `toLowerCase` applies full Unicode case mapping, so non-ASCII letters match case-sensitively in this model.
- Whitespace for `trim`: the set is the fixed list of ECMAScript WhiteSpace and LineTerminator code points. It follows the current Unicode Zs category and does not track later Unicode versions.
- Api.ItemUrl: the URL is modelled as a string. How a URL parser splits it is not modelled. A code from the server holding `?` or `#` would be cut short there, so two such codes can reach the same item. Codes that pass the form's pattern hold neither character (`Links.MatchesCodePattern`).
- HTTP status range: the status is any integer. The model does not restrict it to the 200–599 range that `fetch` produces.

=== FILE: api.dfy ===
/**
 The REST interface the views talk to, reduced to what the client decides on:
 the request it sends and the reply it gets back. The transport itself is not
 modelled; a reply is an input to the transitions.
 */
module Api {
  import opened Options

  /** What `fetch` resolves to: a response with its status and its JSON body
      (already read), or a rejection because no response arrived. */
  datatype Reply<T> = Response(status: int, body: T) | NetworkFailure

  /** `res.ok`: the status lies in the 2xx range. */
  predicate IsOk(status: int) {
    200 <= status <= 299
  }

  /** The reply succeeded: a response with a 2xx status. */
  predicate Succeeded<T>(reply: Reply<T>) {
    reply.Response? && IsOk(reply.status)
  }

  datatype Verb = Get | Post | Delete

  /** The JSON body of a create request, `{ url, code }`. A None code is the
      `undefined` that `JSON.stringify` leaves out of the object. */
  datatype Payload = Payload(url: string, code: Option<string>)

  datatype Request = Request(verb: Verb, url: string, payload: Option<Payload>)

  /** `${base}/api/links`: the collection (GET lists it, POST creates in it). */
  function CollectionUrl(base: string): (r: string)
    ensures |r| == |base| + 10
    ensures r[..|base|] == base && r[|base|..] == "/api/links"
  {
    base + "/api/links"
  }

  /** `${base}/api/links/${code}`: one link (GET reads it, DELETE removes it).
      The code is inserted as is, without URL encoding. */
  function ItemUrl(base: string, code: string): (r: string)
    ensures |r| == |base| + 11 + |code|
    ensures r[..|base| + 10] == CollectionUrl(base) && r[|base| + 10] == '/'
    ensures r[|base| + 11..] == code
  {
    CollectionUrl(base) + "/" + code
  }

  /** An item URL names one code: different codes are never sent to the same
      URL on one base. */
  lemma ItemUrlNamesOneCode(base: string, c1: string, c2: string)
    requires ItemUrl(base, c1) == ItemUrl(base, c2)
    ensures c1 == c2
  {
  }
}

=== FILE: dashboard.dfy ===
/**
 The dashboard view: its state record and the four things that change it or
 read it, each as a pure transition. Loading the list, creating a link and
 deleting one take the reply their request would get as an input; the search
 filter is a function of the list and the query.
 */
module Dashboard {
  import opened Options
  import opened Text
  import opened Seqs
  import opened Links
  import opened Api

  const LoadFailed := "Doesn't load Links.Try after some time."
  const UrlRequired := "URL required."
  const BadCode := "Code contains 6-8 characters A-Z,a-z,0-9."
  const CodeTaken := "Code Already Exist, Try Another."
  const CreateFailed := "Could not create link."
  const CreateSucceeded := "Link successfully created!"
  const CreateNetworkError := "Network error. Try again after some time."
  const AlreadyDeleted := "Code already delete / doesn't exist."
  const DeleteFailed := "Could not delete. Try after some time."
  const DeleteNetworkError := "Network error."

  /** Everything the dashboard keeps between renders. */
  datatype State = State(
    links: seq<Link>,
    loadingLinks: bool,
    linksError: string,
    url: string,
    code: string,
    creating: bool,
    formError: string,
    formSuccess: string,
    search: string)

  /** The state when the dashboard mounts, before the list has arrived. */
  const Initial := State([], true, "", "", "", false, "", "", "")

  /** The outcome of one user action: the new state, the request sent (if
      any) and the blocking alert shown (if any). */
  datatype Effect = Effect(state: State, request: Option<Request>, alert: Option<string>)

  // ---------------------------------------------------------------- loading

  /** The list load run on mount: the list is replaced by the server's on a
      2xx reply and kept otherwise, with a message; loading always ends. */
  function LoadLinks(s: State, base: string, reply: Reply<seq<Link>>): (e: Effect)
    ensures e.request == Some(Request(Get, CollectionUrl(base), None)) && e.alert == None
    ensures !e.state.loadingLinks
    ensures Succeeded(reply) ==> e.state.links == reply.body && e.state.linksError == ""
    ensures !Succeeded(reply) ==> e.state.links == s.links && e.state.linksError == LoadFailed
    ensures e.state.(links := s.links, loadingLinks := s.loadingLinks, linksError := s.linksError) == s
  {
    var started := s.(loadingLinks := true, linksError := "");
    var finished :=
      match reply
      case Response(status, body) =>
        if IsOk(status) then started.(links := body) else started.(linksError := LoadFailed)
      case NetworkFailure => started.(linksError := LoadFailed);
    Effect(finished.(loadingLinks := false), Some(Request(Get, CollectionUrl(base), None)), None)
  }

  /** Loading twice with the same reply leaves the state of one load. */
  lemma LoadLinksIdempotent(s: State, base: string, reply: Reply<seq<Link>>)
    ensures LoadLinks(LoadLinks(s, base, reply).state, base, reply) == LoadLinks(s, base, reply)
  {
  }

  /** The load run when the dashboard mounts: the form starts empty, and the
      list is the server's on a 2xx reply and empty otherwise, so it has
      unique codes exactly when the server's list does. */
  lemma LoadOnMount(base: string, reply: Reply<seq<Link>>)
    ensures var r := LoadLinks(Initial, base, reply).state;
      && !r.loadingLinks && !r.creating
      && r.url == "" && r.code == "" && r.search == ""
      && r.formError == "" && r.formSuccess == ""
      && (Succeeded(reply) ==> r.links == reply.body && r.linksError == "")
      && (!Succeeded(reply) ==> r.links == [] && r.linksError == LoadFailed)
    ensures UniqueCodes(LoadLinks(Initial, base, reply).state.links) <==>
      (Succeeded(reply) ==> UniqueCodes(reply.body))
  {
  }

  // --------------------------------------------------------------- creating

  /** The checks made before any request: the URL must not be blank after
      trimming, and then a non-empty code must be 6 to 8 ASCII letters or
      digits. None lets the request go; otherwise the form error to show. */
  function CreateGuard(url: string, code: string): (r: Option<string>)
    ensures r == Some(UrlRequired) <==> Blank(url)
    ensures r == Some(BadCode) <==>
      !Blank(url) && code != "" &&
      !(6 <= |code| <= 8 && forall i :: 0 <= i < |code| ==> IsCodeChar(code[i]))
    ensures r.None? || r == Some(UrlRequired) || r == Some(BadCode)
  {
    if Trim(url) == "" then Some(UrlRequired)
    else if code != "" && !MatchesCodePattern(code) then Some(BadCode)
    else None
  }

  /** A non-2xx create body as `res.json().catch(() => ({}))` yields it:
      JSON `null`, or a value whose `error` member is read (None when the
      member is absent or null, when the value is not an object, or when the
      body is not JSON and the catch supplied `{}`). */
  datatype ErrorBody = NullBody | ErrorMember(error: Option<string>)

  /** The JSON body of a create reply, read two ways: as the created record
      (on a 2xx status) and as the error body (otherwise). */
  datatype CreateBody = CreateBody(record: Link, errorBody: ErrorBody)

  /** The form error for a create reply that is not a 2xx: the 409 message
      (checked before the body is read), the network message when the body
      is `null` (reading `null.error` throws into the outer catch), else the
      server's `error` unless missing or empty
      (`errBody.error || "Could not create link."`), or the network message
      when no response arrived. */
  function CreateFailure(reply: Reply<CreateBody>): (m: string)
    ensures m != ""
    ensures reply.Response? && reply.status == 409 ==> m == CodeTaken
    ensures reply.Response? && reply.status != 409 && reply.body.errorBody.NullBody? ==>
      m == CreateNetworkError
    ensures reply.Response? && reply.status != 409 && reply.body.errorBody.ErrorMember? ==>
      m == if reply.body.errorBody.error.Some? && reply.body.errorBody.error.value != ""
           then reply.body.errorBody.error.value
           else CreateFailed
    ensures reply.NetworkFailure? ==> m == CreateNetworkError
  {
    match reply
    case NetworkFailure => CreateNetworkError
    case Response(status, body) =>
      if status == 409 then CodeTaken
      else match body.errorBody
        case NullBody => CreateNetworkError
        case ErrorMember(error) =>
          if error.Some? && error.value != "" then error.value else CreateFailed
  }

  /** The state once the reply to a sent create has arrived: on 2xx the
      record goes in front and the form is cleared with the success message;
      otherwise only the form error changes. `creating` ends false. */
  function ApplyCreateReply(s: State, reply: Reply<CreateBody>): (r: State)
    ensures !r.creating && r.search == s.search
    ensures r.loadingLinks == s.loadingLinks && r.linksError == s.linksError
    ensures Succeeded(reply) ==>
      && r.links == [reply.body.record] + s.links
      && r.url == "" && r.code == ""
      && r.formError == s.formError && r.formSuccess == CreateSucceeded
    ensures !Succeeded(reply) ==>
      && r.links == s.links && r.url == s.url && r.code == s.code
      && r.formSuccess == s.formSuccess && r.formError == CreateFailure(reply)
  {
    var answered :=
      if Succeeded(reply) then
        s.(links := [reply.body.record] + s.links, url := "", code := "",
           formSuccess := CreateSucceeded)
      else s.(formError := CreateFailure(reply));
    answered.(creating := false)
  }

  /** The form submit handler: the guards, then the POST, then the reply. */
  function HandleCreate(s: State, base: string, reply: Reply<CreateBody>): (e: Effect)
    ensures e.alert == None
    ensures e.state.search == s.search
    ensures e.state.loadingLinks == s.loadingLinks && e.state.linksError == s.linksError
    // refused before sending: nothing is sent and nothing but the messages changes
    ensures Blank(s.url) ==>
      e.request == None && e.state == s.(formError := UrlRequired, formSuccess := "")
    ensures (!Blank(s.url) && s.code != "" &&
             !(6 <= |s.code| <= 8 && forall i :: 0 <= i < |s.code| ==> IsCodeChar(s.code[i]))) ==>
      e.request == None && e.state == s.(formError := BadCode, formSuccess := "")
    // sent: the untrimmed URL, and the code only when one was typed
    ensures e.request.Some? <==> !Blank(s.url) && CodeAccepted(s.code)
    ensures !(e.request.Some? && Succeeded(reply)) ==> e.state.links == s.links
    ensures e.request.Some? ==>
      && e.request.value == Request(Post, CollectionUrl(base),
           Some(Payload(s.url, if s.code == "" then None else Some(s.code))))
      && !e.state.creating
    // success: the record goes in front, the form is cleared
    ensures e.request.Some? && Succeeded(reply) ==>
      && e.state.links == [reply.body.record] + s.links
      && e.state.url == "" && e.state.code == ""
      && e.state.formError == "" && e.state.formSuccess == CreateSucceeded
    // failure: list and form kept, one message
    ensures e.request.Some? && !Succeeded(reply) ==>
      && e.state.links == s.links && e.state.url == s.url && e.state.code == s.code
      && e.state.formSuccess == "" && e.state.formError == CreateFailure(reply)
  {
    var cleared := s.(formError := "", formSuccess := "");
    match CreateGuard(s.url, s.code)
    case Some(message) => Effect(cleared.(formError := message), None, None)
    case None =>
      var request := Request(Post, CollectionUrl(base),
                             Some(Payload(s.url, if s.code == "" then None else Some(s.code))));
      Effect(ApplyCreateReply(cleared, reply), Some(request), None)
  }

  // --------------------------------------------------------------- deleting

  /** The list without the records carrying `code`. */
  function RemoveCode(links: seq<Link>, code: string): (r: seq<Link>)
    ensures forall l :: l in r <==> l in links && l.code != code
    ensures IsSubsequence(r, links)
    ensures forall l :: multiset(r)[l] == if l.code == code then 0 else multiset(links)[l]
    ensures (forall i :: 0 <= i < |links| ==> links[i].code != code) ==> r == links
  {
    Filter(links, (l: Link) => l.code != code)
  }

  /** The delete button: confirm, DELETE, then drop the code from the list
      on success or alert otherwise. `confirmed` is the user's answer to the
      confirmation prompt. */
  function HandleDelete(s: State, base: string, target: string, confirmed: bool, reply: Reply<()>): (e: Effect)
    ensures !confirmed ==> e == Effect(s, None, None)
    ensures confirmed ==> e.request == Some(Request(Delete, ItemUrl(base, target), None))
    ensures confirmed && Succeeded(reply) ==>
      e.state == s.(links := RemoveCode(s.links, target)) && e.alert == None
    ensures confirmed && !Succeeded(reply) ==> e.state == s && e.alert.Some?
    ensures confirmed && reply.Response? && reply.status == 404 ==> e.alert == Some(AlreadyDeleted)
    ensures confirmed && reply.Response? && reply.status != 404 && !IsOk(reply.status) ==>
      e.alert == Some(DeleteFailed)
    ensures confirmed && reply.NetworkFailure? ==> e.alert == Some(DeleteNetworkError)
  {
    if !confirmed then Effect(s, None, None)
    else
      var request := Some(Request(Delete, ItemUrl(base, target), None));
      match reply
      case Response(status, _) =>
        if status == 404 then Effect(s, request, Some(AlreadyDeleted))
        else if !IsOk(status) then Effect(s, request, Some(DeleteFailed))
        else Effect(s.(links := RemoveCode(s.links, target)), request, None)
      case NetworkFailure => Effect(s, request, Some(DeleteNetworkError))
  }

  // -------------------------------------------------------------- searching

  /** A record matches a lower-cased query when its lower-cased code or
      target URL contains it. */
  predicate MatchesQuery(l: Link, query: string)
    ensures MatchesQuery(l, query) <==>
      Occurs(Lower(l.code), query) || Occurs(Lower(l.targetUrl), query)
  {
    var code, target := Lower(l.code), Lower(l.targetUrl);
    ContainsIff(code, query);
    ContainsIff(target, query);
    Contains(code, query) || Contains(target, query)
  }

  /** The rows shown: every record when the query is blank, otherwise the
      records matching the lower-cased (but untrimmed) query, in list order. */
  function Visible(links: seq<Link>, search: string): (r: seq<Link>)
    ensures Blank(search) ==> r == links
    ensures !Blank(search) ==>
      forall l :: l in r <==> l in links && MatchesQuery(l, Lower(search))
    ensures !Blank(search) ==>
      forall l :: multiset(r)[l] == if MatchesQuery(l, Lower(search)) then multiset(links)[l] else 0
    ensures IsSubsequence(r, links)
    ensures |r| <= |links|
  {
    if Trim(search) == "" then
      SubsequenceReflexive(links);
      links
    else
      var query := Lower(search);
      Filter(links, (l: Link) => MatchesQuery(l, query))
  }

  /** Lower-case variants of one query select the same rows: the search is
      case-insensitive in the query as well as in the records. */
  lemma VisibleIgnoresQueryCase(links: seq<Link>, q1: string, q2: string)
    requires Lower(q1) == Lower(q2)
    ensures Visible(links, q1) == Visible(links, q2)
  {
    LowerKeepsBlank(q1);
    LowerKeepsBlank(q2);
  }

  /** The rows kept for a non-blank query are those in whose lower-cased code
      or target URL the lower-cased query occurs at some position. */
  lemma VisibleByOccurrence(links: seq<Link>, search: string)
    requires !Blank(search)
    ensures forall l :: l in Visible(links, search) <==>
      l in links &&
      (Occurs(Lower(l.code), Lower(search)) || Occurs(Lower(l.targetUrl), Lower(search)))
  {
    var q := Lower(search);
    forall l: Link
      ensures (Contains(Lower(l.code), q) <==> Occurs(Lower(l.code), q))
      ensures (Contains(Lower(l.targetUrl), q) <==> Occurs(Lower(l.targetUrl), q))
    {
      ContainsIff(Lower(l.code), Lower(search));
      ContainsIff(Lower(l.targetUrl), Lower(search));
    }
  }

  // ------------------------------------------------------ the list invariant

  /** No two records share a code: the code is the server's primary key.
      Stated from the front: the first record's code is not used again, and
      the same holds of the rest. */
  predicate UniqueCodes(links: seq<Link>)
    decreases |links|
  {
    links == [] ||
    ((forall l :: l in links[1..] ==> l.code != links[0].code) && UniqueCodes(links[1..]))
  }

  /** Some record carries `code`. */
  predicate HasCode(links: seq<Link>, code: string) {
    exists l :: l in links && l.code == code
  }

  /** Removing a code from a list with unique codes keeps the codes unique. */
  lemma {:induction false} RemoveCodeKeepsUnique(links: seq<Link>, code: string)
    requires UniqueCodes(links)
    ensures UniqueCodes(RemoveCode(links, code))
    decreases |links|
  {
    if links != [] {
      var rest := RemoveCode(links[1..], code);
      RemoveCodeKeepsUnique(links[1..], code);
      if links[0].code != code {
        assert RemoveCode(links, code) == [links[0]] + rest;
        assert ([links[0]] + rest)[1..] == rest;
      }
    }
  }

  /** From a list with unique codes, removing a code that is present takes
      out exactly one record. */
  lemma {:induction false} RemoveCodeDropsOne(links: seq<Link>, code: string)
    requires UniqueCodes(links) && HasCode(links, code)
    ensures |RemoveCode(links, code)| == |links| - 1
    decreases |links|
  {
    var tail := links[1..];
    if links[0].code == code {
      assert forall i :: 0 <= i < |tail| ==> tail[i].code != code by {
        assert forall l :: l in tail ==> l.code != code;
      }
      assert RemoveCode(tail, code) == tail;
      assert RemoveCode(links, code) == RemoveCode(tail, code);
    } else {
      assert HasCode(tail, code) by {
        assert links == [links[0]] + tail;
      }
      RemoveCodeDropsOne(tail, code);
      assert RemoveCode(links, code) == [links[0]] + RemoveCode(tail, code);
    }
  }

  /** Removing a code from a list with unique codes keeps the codes unique
      and takes out exactly one record when the code is present, none when it
      is absent. */
  lemma RemoveCodeFromUnique(links: seq<Link>, code: string)
    requires UniqueCodes(links)
    ensures UniqueCodes(RemoveCode(links, code))
    ensures HasCode(links, code) ==> |RemoveCode(links, code)| == |links| - 1
    ensures !HasCode(links, code) ==> RemoveCode(links, code) == links
  {
    RemoveCodeKeepsUnique(links, code);
    if HasCode(links, code) {
      RemoveCodeDropsOne(links, code);
    }
  }

  /** A create keeps the codes unique when the server hands back a code the
      list does not already hold, as its uniqueness rule guarantees. */
  lemma CreateKeepsUnique(s: State, base: string, reply: Reply<CreateBody>)
    requires UniqueCodes(s.links)
    requires Succeeded(reply) ==> !HasCode(s.links, reply.body.record.code)
    ensures UniqueCodes(HandleCreate(s, base, reply).state.links)
  {
  }

  /** A delete keeps the codes unique; a successful one removes exactly the
      one record carrying the code, when there is one. */
  lemma DeleteKeepsUnique(s: State, base: string, target: string, confirmed: bool, reply: Reply<()>)
    requires UniqueCodes(s.links)
    ensures UniqueCodes(HandleDelete(s, base, target, confirmed, reply).state.links)
    ensures confirmed && Succeeded(reply) && HasCode(s.links, target) ==>
      |HandleDelete(s, base, target, confirmed, reply).state.links| == |s.links| - 1
  {
    RemoveCodeFromUnique(s.links, target);
  }

  /** A non-blank query that no record matches shows no rows. */
  lemma NoMatchShowsNothing(links: seq<Link>, search: string)
    requires !Blank(search)
    requires forall l :: l in links ==> !MatchesQuery(l, Lower(search))
    ensures Visible(links, search) == []
  {
    var r := Visible(links, search);
    assert forall l :: l !in r;
  }

  /** The query is lower-cased but not trimmed: whitespace inside or around a
      non-blank query must itself occur in the code or the URL, so a query
      holding a whitespace character that no record holds shows no rows. */
  lemma UntrimmedQuery(links: seq<Link>, search: string, c: char)
    requires !Blank(search) && IsSpace(c) && c in search
    requires forall l :: l in links ==> c !in l.code && c !in l.targetUrl
    ensures Visible(links, search) == []
  {
    LowerKeepsSpaceChar(search, c);
    forall l | l in links ensures !MatchesQuery(l, Lower(search)) {
      LowerKeepsSpaceChar(l.code, c);
      LowerKeepsSpaceChar(l.targetUrl, c);
      MissingCharNotContained(Lower(l.code), Lower(search), c);
      MissingCharNotContained(Lower(l.targetUrl), Lower(search), c);
    }
    NoMatchShowsNothing(links, search);
  }
}

=== FILE: links.dfy ===
/**
 The link record as the server sends it, the short-code rule the create form
 enforces, and the pieces of a table row that are computed from a record: the
 short URL and the "-" shown for a missing timestamp.
 */
module Links {
  import opened Options

  /** One shortened link, with the wire fields `code`, `target_url`,
      `total_clicks`, `last_clicked_at` and `created_at`. Timestamps are kept
      as the ISO-8601 text the server sends; None stands for null or absent. */
  datatype Link = Link(
    code: string,
    targetUrl: string,
    totalClicks: nat,
    lastClickedAt: Option<string>,
    createdAt: Option<string>)

  /** The character class `[A-Za-z0-9]`. */
  predicate IsCodeChar(c: char) {
    'A' <= c <= 'Z' || 'a' <= c <= 'z' || '0' <= c <= '9'
  }

  /** The whole string matches `^[A-Za-z0-9]{6,8}$`. */
  predicate MatchesCodePattern(s: string)
    ensures MatchesCodePattern(s) ==> 6 <= |s| <= 8
    ensures MatchesCodePattern(s) ==> '/' !in s && '?' !in s && '#' !in s
  {
    6 <= |s| <= 8 && forall i :: 0 <= i < |s| ==> IsCodeChar(s[i])
  }

  /** `/^[A-Za-z0-9]{6,8}$/.test(s)` as a regular-expression engine runs it:
      consume at most eight characters of the class, then demand that the
      input has ended and that at least six were consumed. */
  method TestCodePattern(s: string) returns (matched: bool)
    ensures matched <==> 6 <= |s| <= 8 && forall i :: 0 <= i < |s| ==> IsCodeChar(s[i])
  {
    var n := 0;
    while n < |s| && n < 8 && IsCodeChar(s[n])
      invariant n <= |s| && n <= 8
      invariant forall i :: 0 <= i < n ==> IsCodeChar(s[i])
    {
      n := n + 1;
    }
    matched := n == |s| && 6 <= n;
  }

  /** The custom code the form accepts: empty (the server then picks one)
      or a match of the code pattern. */
  predicate CodeAccepted(code: string)
    ensures CodeAccepted(code) <==>
      code == [] || (6 <= |code| <= 8 && forall i :: 0 <= i < |code| ==> IsCodeChar(code[i]))
    ensures CodeAccepted(code) && code != [] ==> '/' !in code
  {
    code == "" || MatchesCodePattern(code)
  }

  /** The code rule on sample codes. */
  lemma CodeExamples()
    ensures CodeAccepted("abc123") && CodeAccepted("")
    ensures !CodeAccepted("ab12") && !CodeAccepted("abc-123")
  {
    assert !IsCodeChar("abc-123"[3]);
  }

  /** `${base}/${code}`: the link shown in a row and on the stats page. */
  function ShortUrl(base: string, code: string): (r: string)
    ensures |r| == |base| + 1 + |code|
    ensures r[..|base|] == base && r[|base|] == '/' && r[|base| + 1..] == code
  {
    base + "/" + code
  }

  /** Reads the code back out of a short URL built on `base`. */
  function CodeOfShortUrl(base: string, url: string): Option<string> {
    if |base| < |url| && url[..|base|] == base && url[|base|] == '/'
    then Some(url[|base| + 1..])
    else None
  }

  /** A short URL names its code unambiguously: reading it back gives the
      code it was built from, so two codes never share a short URL. */
  lemma ShortUrlRoundTrip(base: string, code: string)
    ensures CodeOfShortUrl(base, ShortUrl(base, code)) == Some(code)
  {
  }

  /** Different codes give different short URLs on the same base. */
  lemma ShortUrlInjective(base: string, c1: string, c2: string)
    requires ShortUrl(base, c1) == ShortUrl(base, c2)
    ensures c1 == c2
  {
  }

  /** The text of the "Last clicked" and "Created at" cells: "-" when the
      timestamp is null, absent or empty (all falsy in JavaScript), otherwise
      the timestamp as rendered by `format`, which stands for the
      locale-dependent `new Date(ts).toLocaleString()`. */
  function TimestampCell(ts: Option<string>, format: string -> string): (r: string)
    ensures ts == None || ts == Some("") ==> r == "-"
    ensures ts.Some? && ts.value != "" ==> r == format(ts.value)
  {
    match ts
    case Some(t) => if t == "" then "-" else format(t)
    case None => "-"
  }
}

=== FILE: options.dfy ===
/** An optional value: JavaScript's `null` / `undefined` made explicit. */
module Options {

  datatype Option<+T> = None | Some(value: T)
}

=== FILE: seqs.dfy ===
/** Order-preserving selection from a sequence: `Array.prototype.filter`. */
module Seqs {

  /** `a` can be obtained from `b` by deleting elements, without reordering. */
  predicate IsSubsequence<T(==)>(a: seq<T>, b: seq<T>)
    decreases |b|
  {
    a == [] || (b != [] && ((a[0] == b[0] && IsSubsequence(a[1..], b[1..])) || IsSubsequence(a, b[1..])))
  }

  /** `xs.filter(p)`: the elements of `xs` that satisfy `p`, in their original
      order, each kept as often as it occurs in `xs`. */
  function Filter<T(==,!new)>(xs: seq<T>, p: T -> bool): (r: seq<T>)
    ensures |r| <= |xs|
    ensures forall x :: x in r <==> x in xs && p(x)
    ensures IsSubsequence(r, xs)
    ensures forall x :: multiset(r)[x] == if p(x) then multiset(xs)[x] else 0
    ensures (forall i :: 0 <= i < |xs| ==> p(xs[i])) ==> r == xs
  {
    if xs == [] then []
    else
      var rest := Filter(xs[1..], p);
      assert xs == [xs[0]] + xs[1..];
      assert multiset(xs) == multiset{xs[0]} + multiset(xs[1..]);
      if p(xs[0]) then [xs[0]] + rest else rest
  }

  /** Every sequence is a subsequence of itself. */
  lemma {:induction false} SubsequenceReflexive<T>(xs: seq<T>)
    ensures IsSubsequence(xs, xs)
  {
    if xs != [] {
      SubsequenceReflexive(xs[1..]);
    }
  }
}

=== FILE: stats.dfy ===
/**
 The stats page for one code: the fetch run whenever the code in the route
 changes, and the choice of what the page shows.
 */
module Stats {
  import opened Options
  import opened Links
  import opened Api

  const CodeMissing := "Code doesn't exist."
  const LoadFailed := "Stats doesn't load."
  const NetworkError := "Network error."

  /** The page's state: the route's code, the last record received, the
      loading flag and the error text ("" for none). */
  datatype State = State(code: string, data: Option<Link>, loading: bool, err: string)

  /** The state when the page mounts for `code`: loading, with no record and
      no error. */
  function Mount(code: string): (r: State)
    ensures r.code == code && r.data == None && r.loading && r.err == ""
  {
    State(code, None, true, "")
  }

  /** The route's code changed while the page stayed mounted: React renders
      the new code with the old state before the effect starts the fetch, so
      the old record, loading flag and error all stay. */
  function Navigate(s: State, code: string): (r: State)
    ensures r.code == code && r.data == s.data && r.loading == s.loading && r.err == s.err
  {
    s.(code := code)
  }

  /** The code change the page evidently intends: the state is reset as on a
      fresh mount (what `<StatsPage key={code} />` would do), so nothing of
      the previous code survives. */
  function Remount(s: State, code: string): (r: State)
    ensures r.code == code && r.data == None && r.loading && r.err == ""
  {
    Mount(code)
  }

  /** The fetch in flight: loading, no error. The previous record is NOT
      cleared. */
  function Begin(s: State): (r: State)
    ensures r.loading && r.err == ""
    ensures r.code == s.code && r.data == s.data
  {
    s.(loading := true, err := "")
  }

  /** The fetch and its request. */
  datatype Step = Step(state: State, request: Request)

  /** One run of the fetch for the current code, from start to a terminal
      state: 404, another non-2xx status and a network failure each give
      their own message and keep the old record; a 2xx reply stores the
      record. Loading ends in every case. */
  function Fetch(s: State, base: string, reply: Reply<Link>): (st: Step)
    ensures st.request == Request(Get, ItemUrl(base, s.code), None)
    ensures !st.state.loading && st.state.code == s.code
    ensures Succeeded(reply) ==> st.state.data == Some(reply.body) && st.state.err == ""
    ensures !Succeeded(reply) ==> st.state.data == s.data
    ensures reply.Response? && reply.status == 404 ==> st.state.err == CodeMissing
    ensures reply.Response? && reply.status != 404 && !IsOk(reply.status) ==> st.state.err == LoadFailed
    ensures reply.NetworkFailure? ==> st.state.err == NetworkError
  {
    var started := Begin(s);
    var finished :=
      match reply
      case Response(status, body) =>
        if status == 404 then started.(err := CodeMissing)
        else if !IsOk(status) then started.(err := LoadFailed)
        else started.(data := Some(body))
      case NetworkFailure => started.(err := NetworkError);
    Step(finished.(loading := false), Request(Get, ItemUrl(base, s.code), None))
  }

  /** What the page shows. */
  datatype View = Loading | Failed(message: string) | Shown(link: Link, shortUrl: string)

  /** A state the page can render without dereferencing a null record. */
  predicate Renderable(s: State) {
    s.loading || s.err != "" || s.data.Some?
  }

  /** The page: "Loading..." while loading, else the error if there is one,
      else the record with the short URL built from the route's code. */
  function Render(s: State, base: string): (v: View)
    requires Renderable(s)
    ensures v.Loading? <==> s.loading
    ensures v.Failed? <==> !s.loading && s.err != ""
    ensures v.Failed? ==> v.message == s.err
    ensures v.Shown? ==> Some(v.link) == s.data && v.shortUrl == ShortUrl(base, s.code)
  {
    if s.loading then Loading
    else if s.err != "" then Failed(s.err)
    else Shown(s.data.value, ShortUrl(base, s.code))
  }

  /** Every state the page goes through can be rendered, starting from the
      mount, across navigations (before and after the effect runs) and
      fetches. */
  lemma RenderableReachable(s: State, code: string, base: string, reply: Reply<Link>)
    ensures Renderable(Mount(code))
    ensures Renderable(s) ==> Renderable(Navigate(s, code))
    ensures Renderable(Remount(s, code))
    ensures Renderable(Begin(Navigate(s, code)))
    ensures Renderable(Fetch(s, base, reply).state)
  {
  }

  /** Once the fetch for the new code has started, whatever the page held
      before: while it is in flight the page shows only "Loading...", and
      afterwards exactly the fetched record or that fetch's own error. */
  lemma NeverShowsStaleRecord(s: State, code: string, base: string, reply: Reply<Link>)
    ensures Render(Begin(Navigate(s, code)), base) == Loading
    ensures Render(Fetch(Navigate(s, code), base, reply).state, base) ==
      if Succeeded(reply) then Shown(reply.body, ShortUrl(base, code))
      else if reply.NetworkFailure? then Failed(NetworkError)
      else if reply.status == 404 then Failed(CodeMissing)
      else Failed(LoadFailed)
  {
  }

  /** The render between a code change and the start of its fetch, as the
      page is written: a page that shows a record keeps showing it, now
      beside the new code's short URL, and a page that shows an error keeps
      showing it under the new code. After a successful fetch for `a`, moving
      to `b` shows `a`'s record under `b`'s short URL; after a 404 for `a`, it
      shows `a`'s "Code doesn't exist." for `b`. */
  lemma StaleRecordOnNavigate(a: string, b: string, base: string, rec: Link)
    requires rec.code == a && a != b
    ensures var loaded := Fetch(Mount(a), base, Response(200, rec)).state;
      Render(Navigate(loaded, b), base) == Shown(rec, ShortUrl(base, b))
    ensures var loaded := Fetch(Mount(a), base, Response(200, rec)).state;
      Render(Navigate(loaded, b), base).link.code != b
    ensures var missing := Fetch(Mount(a), base, Response(404, rec)).state;
      Render(Navigate(missing, b), base) == Failed(CodeMissing)
  {
  }

  /** With the reset on a code change, no render after it shows another
      code's record: the first render is "Loading...", and after the fetch
      the page shows exactly the fetched record or that fetch's error. */
  lemma RemountShowsNoStaleRecord(s: State, code: string, base: string, reply: Reply<Link>)
    ensures Render(Remount(s, code), base) == Loading
    ensures Render(Begin(Remount(s, code)), base) == Loading
    ensures Render(Fetch(Remount(s, code), base, reply).state, base) ==
      if Succeeded(reply) then Shown(reply.body, ShortUrl(base, code))
      else if reply.NetworkFailure? then Failed(NetworkError)
      else if reply.status == 404 then Failed(CodeMissing)
      else Failed(LoadFailed)
    ensures Render(Fetch(Remount(s, code), base, reply).state, base).Shown? ==>
      Succeeded(reply)
  {
  }
}

=== FILE: text.dfy ===
/**
 The three JavaScript string operations the dashboard relies on:
 `String.prototype.trim`, `toLowerCase` (ASCII letters only) and `includes`.
 */
module Text {

  /** The code points `trim` removes: ECMAScript WhiteSpace (TAB, VT, FF, SP,
      NBSP, ZWNBSP and the Zs category) and LineTerminator (LF, CR, LS, PS). */
  predicate IsSpace(c: char) {
    var n := c as int;
    || n == 0x09 || n == 0x0A || n == 0x0B || n == 0x0C || n == 0x0D
    || n == 0x20 || n == 0xA0 || n == 0x1680
    || (0x2000 <= n <= 0x200A)
    || n == 0x2028 || n == 0x2029 || n == 0x202F || n == 0x205F
    || n == 0x3000 || n == 0xFEFF
  }

  /** A string made only of whitespace (the empty string included). */
  predicate Blank(s: string) {
    forall i :: 0 <= i < |s| ==> IsSpace(s[i])
  }

  /** `r` is the slice of `s` starting at `i`, with only whitespace before
      and after it. */
  ghost predicate BlankAround(s: string, r: string, i: int) {
    0 <= i <= |s| - |r| && r == s[i..i + |r|] && Blank(s[..i]) && Blank(s[i + |r|..])
  }

  /** Drops leading whitespace. */
  function TrimStart(s: string): (r: string)
    ensures |r| <= |s| && r == s[|s| - |r|..]
    ensures forall i :: 0 <= i < |s| - |r| ==> IsSpace(s[i])
    ensures r == [] || !IsSpace(r[0])
    decreases |s|
  {
    if s == [] || !IsSpace(s[0]) then s else TrimStart(s[1..])
  }

  /** Drops trailing whitespace. */
  function TrimEnd(s: string): (r: string)
    ensures |r| <= |s| && r == s[..|r|]
    ensures forall i :: |r| <= i < |s| ==> IsSpace(s[i])
    ensures r == [] || !IsSpace(r[|r| - 1])
    decreases |s|
  {
    if s == [] || !IsSpace(s[|s| - 1]) then s else TrimEnd(s[..|s| - 1])
  }

  /** `s.trim()`: the result is empty exactly when `s` is blank; otherwise it
      neither starts nor ends with whitespace. */
  function Trim(s: string): (r: string)
    ensures |r| <= |s|
    ensures r == [] <==> Blank(s)
    ensures r != [] ==> !IsSpace(r[0]) && !IsSpace(r[|r| - 1])
  {
    var t := TrimStart(s);
    var r := TrimEnd(t);
    assert r == [] ==> Blank(s) by {
      if r == [] {
        assert t == [];
      }
    }
    assert r != [] ==> r[0] == t[0];
    r
  }

  /** `s.trim()` is the slice of `s` left once the whitespace before and
      after it is dropped; with the edge facts of `Trim` this pins the result
      down to the one string `trim` returns. */
  lemma TrimIsSlice(s: string)
    ensures exists i :: BlankAround(s, Trim(s), i)
  {
    var t := TrimStart(s);
    var r := TrimEnd(t);
    var i := |s| - |t|;
    assert Trim(s) == r;
    SliceOfSuffix(s, t, r, i);
    LeadingBlank(s);
    TrailingBlank(t);
    assert BlankAround(s, r, i);
  }

  /** A prefix `r` of the suffix `t` of `s` that starts at `i` is the slice
      of `s` at `i`, and what follows it in `t` is what follows it in `s`. */
  lemma SliceOfSuffix(s: string, t: string, r: string, i: int)
    requires 0 <= i <= |s| && t == s[i..] && |r| <= |t| && r == t[..|r|]
    ensures r == s[i..i + |r|] && s[i + |r|..] == t[|r|..]
  {
  }

  /** What `TrimStart` drops is blank. */
  lemma LeadingBlank(s: string)
    ensures Blank(s[..|s| - |TrimStart(s)|])
  {
    var before := s[..|s| - |TrimStart(s)|];
    forall j | 0 <= j < |before| ensures IsSpace(before[j]) {
      assert before[j] == s[j];
    }
  }

  /** What `TrimEnd` drops is blank. */
  lemma TrailingBlank(t: string)
    ensures Blank(t[|TrimEnd(t)|..])
  {
    var after := t[|TrimEnd(t)|..];
    forall j | 0 <= j < |after| ensures IsSpace(after[j]) {
      assert after[j] == t[|TrimEnd(t)| + j];
    }
  }

  /** The ASCII lower-case mapping of one character. */
  function LowerChar(c: char): (d: char)
    ensures !('A' <= d <= 'Z')
    ensures 'A' <= c <= 'Z' ==> d as int == c as int + 32
    ensures !('A' <= c <= 'Z') ==> d == c
  {
    if 'A' <= c <= 'Z' then (c as int + 32) as char else c
  }

  /** `s.toLowerCase()` restricted to ASCII letters: the same length, each
      character mapped on its own. */
  function Lower(s: string): (r: string)
    ensures |r| == |s|
    ensures forall i :: 0 <= i < |s| ==> r[i] == LowerChar(s[i])
  {
    if s == [] then [] else [LowerChar(s[0])] + Lower(s[1..])
  }

  /** Lower-casing neither creates nor removes whitespace. */
  lemma LowerKeepsBlank(s: string)
    ensures Blank(Lower(s)) <==> Blank(s)
  {
  }

  /** `hay.includes(needle)`: the needle occurs at the front of `hay` or
      somewhere in its tail. The empty needle occurs everywhere. */
  predicate Contains(hay: string, needle: string)
    ensures needle == [] ==> Contains(hay, needle)
    ensures Contains(hay, needle) ==> |needle| <= |hay|
    decreases |hay|
  {
    |needle| <= |hay| && (needle == hay[..|needle|] || Contains(hay[1..], needle))
  }

  /** `needle` occurs in `hay` starting at index `i`. */
  ghost predicate OccursAt(hay: string, needle: string, i: int) {
    0 <= i && i + |needle| <= |hay| && hay[i..i + |needle|] == needle
  }

  /** `needle` occurs in `hay` at some index. */
  ghost predicate Occurs(hay: string, needle: string) {
    exists i :: OccursAt(hay, needle, i)
  }

  /** The positional definition of containment agrees with `Contains`. */
  lemma {:induction false} ContainsIff(hay: string, needle: string)
    ensures Contains(hay, needle) <==> Occurs(hay, needle)
    decreases |hay|
  {
    if |needle| <= |hay| {
      if needle == hay[..|needle|] {
        assert OccursAt(hay, needle, 0);
      } else {
        ContainsIff(hay[1..], needle);
        if Contains(hay[1..], needle) {
          var i :| OccursAt(hay[1..], needle, i);
          assert hay[1..][i..i + |needle|] == hay[i + 1..i + 1 + |needle|];
          assert OccursAt(hay, needle, i + 1);
        }
        if Occurs(hay, needle) {
          var i :| OccursAt(hay, needle, i);
          assert hay[1..][i - 1..i - 1 + |needle|] == hay[i..i + |needle|];
          assert OccursAt(hay[1..], needle, i - 1);
        }
      }
    }
  }

  /** A needle holding a character the haystack lacks is not contained in it. */
  lemma MissingCharNotContained(hay: string, needle: string, c: char)
    requires c in needle && c !in hay
    ensures !Contains(hay, needle)
  {
  }

  /** Lower-casing keeps a whitespace character in a string and keeps it out
      of a string that lacks it. */
  lemma LowerKeepsSpaceChar(s: string, c: char)
    requires IsSpace(c)
    ensures c in Lower(s) <==> c in s
  {
  }
}
